=== FILE: README.md ===
# Query ledger of the nboost re-ranking proxy

`BaseProxy` (proxies/base.py) sits in front of a search backend. Its `/search`
handler forwards a request, has the ranking model reorder the backend's
candidates, cuts the result to `topk`, and then records the query and the
FULL candidate list under a fresh query id (`qid`) taken from a counter. Its
`/train` handler takes a `qid` and a chosen candidate index (`cid`) from the
request headers. It looks the record up, builds a one-hot label vector over
the stored candidates and hands it to the model's `train`.

This project models that bookkeeping as pure functions over an immutable
ledger:

- `outcomes.dfy` (`Outcomes`): `Result`/`Option` and the error taxonomy. These are
  KeyError on a header, ValueError from `int()`, KeyError on the ledger,
  IndexError, and collaborator failures.
- `pyseq.dfy` (`PySeq`): Python list indexing (negative indices wrap) and
  the prefix slice `s[:k]`.
- `rerank.dfy` (`Reranking`): `[candidates[i] for i in ranks[:topk]]`.
- `labels.dfy` (`Labels`): `[0] * n` followed by `labels[cid] = 1`. It holds both
  the code as written and the checked version.
- `intheader.dfy` (`IntHeader`): `int()` applied to a header string, and
  `str()` of the id.
- `ledger.dfy` (`QueryLedger`): the counter plus the `queries` dict. It has
  issue, lookup and the invariant that the keys are exactly the issued ids.
- `proxy.dfy` (`Proxy`): the two handlers. The collaborators (`magnify`, the
  backend client call, `parse`, `rank`, `format`, `train`) are function-valued
  parameters. The file also has a single-request `Step` and a sequential `Run`.
- `properties.dfy` (`ProxyProperties`): properties of runs. They cover id
  issuance, the search-then-train round trip, train repeatability, the
  negative-`cid` finding and a worked example (backend `[A, B, C]`, ranks
  `[2, 0, 1]`, `topk = 2`).

Requests interleave only at `await` points. The id issue and the ledger insert
(proxies/base.py:59-60) have no `await` between them. So every interleaving of
whole requests is a sequence of `Step`s, and `Run` models the handlers
sequentially. Each request of a `Run` is handled by the collaborators as
they stand when it runs, so a `train` call may change what later `rank`
calls return.

Two behaviours of the code are worth spelling out:

- `len(reranked) == min(topk, len(ranks))` holds only for `topk >= 0`. With a
  negative `topk`, `ranks[:topk]` drops `-topk` ranks from the end instead
  (`Reranking.Rerank`).
- A chosen index `cid` names a position in the served list, so only
  `0 <= cid < len(candidates)` is meaningful. The code also accepts
  `-len(candidates) <= cid < 0`, counting from the end. This is logged under
  Findings, and the rest of the model uses the checked version.

## Model

| member | source | states |
|---|---|---|
| QueryLedger.Empty | proxies/base.py:16-17 | a fresh proxy's counter is 0 and its ledger has no entry, so the keys-are-issued-ids invariant holds |
| QueryLedger.Issue | proxies/base.py:59-60 | the new id is the current counter value and the counter advances by exactly one; the record is stored under the id and every other entry is kept; under the invariant the id was never used before and the invariant is preserved |
| QueryLedger.Lookup | proxies/base.py:37 | lookup yields the stored record exactly when the id has an entry, else KeyError for that id; under the invariant it succeeds exactly for `0 <= qid < next` |
| QueryLedger.IssueThenLookup | proxies/base.py:59-60 | after issuing, the `queries[qid]` lookup of line 37 yields the record just stored for the new id (which had no entry before), and every other id looks up exactly as before |
| PySeq.Get | proxies/base.py:57 | `s[i]` succeeds exactly for `-len <= i < len`, reading position `i` or `len + i`, and raises IndexError otherwise |
| PySeq.Prefix | proxies/base.py:57 | the slice `ranks[:topk]` is a prefix of `ranks` of length `min(topk, len(ranks))` for `topk >= 0` and `max(len(ranks) + topk, 0)` for negative `topk` |
| Reranking.Select | proxies/base.py:57 | the comprehension succeeds exactly when every index is readable; the result has one element per index, in index order, each the candidate that index reads |
| Reranking.Rerank | proxies/base.py:57 | succeeds exactly when the first `topk` ranks (Python slice) are readable; the length is `min(topk, len(ranks))` for `topk >= 0` and `max(len(ranks) + topk, 0)` for negative `topk`; element `j` is the candidate rank `j` names, so every shown item is a candidate |
| Reranking.RerankTopK | proxies/base.py:57 | with `topk >= 0` and in-range ranks the result is `candidates[ranks[j]]` for `j < min(topk, len(ranks))` |
| Reranking.RerankMonotone | proxies/base.py:57 | truncation never reorders: for `0 <= k1 <= k2`, when `topk = k2` succeeds the result for `topk = k1` is a prefix of it (a negative `topk` is not covered: `topk = -1` on three ranks gives two items while `topk = 0` gives none) |
| Labels.Zeros | proxies/base.py:38 | `[0] * len(candidates)` has one entry per candidate and every entry is 0 |
| Labels.OneHot | proxies/base.py:38-39 | the label vector has one entry per candidate, 1 at `cid` and 0 everywhere else; it fails with IndexError exactly when `cid` is outside `0 <= cid < n` |
| Labels.LabelsAsWritten | proxies/base.py:38-39 | as the code does it: it succeeds exactly for `-n <= cid < n`, with the 1 at the wrapped position and 0 elsewhere |
| Labels.OneHotSumsToOne | proxies/base.py:38-39 | a label vector holds exactly one positive label and sums to 1 |
| Labels.OneHotDecodes | proxies/base.py:38-39 | the chosen index can be read back as the position of the first 1 |
| Labels.OneHotInjective | proxies/base.py:38-39 | distinct chosen indices give distinct label vectors |
| Labels.AsWrittenAgreesOnNonNegative | proxies/base.py:38-39 | for `cid >= 0` the code's labels are exactly the one-hot vector, including failure when `cid >= n` |
| Labels.NegativeCidMarksLast | proxies/base.py:39 | the code accepts `cid = -1` for any non-empty list and marks the last candidate; the checked version refuses it |
| IntHeader.Strip | proxies/base.py:34-35 | the whitespace `int()` skips (space, tab, LF, VT, FF, CR) is removed from both ends and nothing else: the result is a contiguous part of the input with no such whitespace at either end, and whitespace-only input strips to empty |
| IntHeader.ParseInt | proxies/base.py:34-35 | `int()` of a header accepts only strings made of digits, `_`, signs and whitespace that contain at least one digit; anything else, including an empty or blank value, is a ValueError (the exact grammar and value are stated by `IntHeader.ParseIntLiteral` and `IntHeader.ParseIntAcceptsOnlyLiterals`) |
| IntHeader.ParseIntLiteral | proxies/base.py:34-35 | whitespace, at most one `+` or `-`, digit groups joined by single underscores (leading zeros allowed) and whitespace read as the digits' value, negated after `-`: `" +0_07 "` is 7 |
| IntHeader.ParseIntSigned | proxies/base.py:34-35 | an unpadded literal, one optional sign then digit groups, reads as the digits' value, negated after `-` |
| IntHeader.ParseIntAcceptsOnlyLiterals | proxies/base.py:34-35 | conversely, every accepted string is whitespace, then digit groups possibly after one sign, then whitespace, and its value is read from those digits |
| IntHeader.ParseIntPaddedLiteral | proxies/base.py:34-35 | `int(" +0_07 ")` is 7: padding, a plus sign, a leading zero and an underscore are all accepted |
| IntHeader.ParseIntRejectsInnerSign | proxies/base.py:34-35 | a sign between digits is a ValueError: `int("1-2")` fails |
| IntHeader.ParseIntPadded | proxies/base.py:34-35 | a decimal integer surrounded by any amount of the whitespace `int()` skips reads as that integer |
| IntHeader.ParseIntRejectsSeparator | proxies/base.py:34-35 | the separator characters 0x1C and 0x1F next to a number make `int()` fail: `str.strip()` would remove them but `int()` does not |
| IntHeader.HeaderInt | proxies/base.py:34-35 | a missing header is a KeyError naming it; a value `int()` rejects is a ValueError naming it; otherwise it yields the parsed integer |
| IntHeader.DecimalString | proxies/base.py:61 | `str(qid)` is a non-empty string of decimal digits whose value is `qid` |
| IntHeader.ParseIntString | proxies/base.py:61 | reading back with `int()` what `str()` wrote gives the same integer, for every integer |
| Proxy.Prepare | proxies/base.py:49-58 | the pre-ledger part of search succeeds exactly when magnify, the call, parse, rank, the re-rank selection and format all succeed; its record is parse's full output and its shown list is the re-ranked, truncated one given to format |
| Proxy.Search | proxies/base.py:48-62 | on failure the counter and ledger are unchanged and the error is exactly the one the pre-ledger part (`Proxy.Prepare`) fails with; on success the id is the old counter value, the counter advances by one, and the entry under the id is parse's (query, full candidate list); the reply's body is `format` of the response and the re-ranked, truncated list, and that list is the one the reply shows; every shown item is a stored candidate, other entries are kept and the invariant is preserved |
| Proxy.ReadIds | proxies/base.py:34-35 | both headers are read with `int()`, `qid` first: a bad `qid` is reported before a bad `cid`, and success yields the two parsed integers |
| Proxy.TrainAt | proxies/base.py:37-45 | with both ids read: an unknown id is a KeyError, a `cid` outside `0 <= cid < n` is an IndexError, and otherwise the stored record with a one-hot label vector goes to the model's `train`, whose failure is passed through |
| Proxy.Submit | proxies/base.py:38-45 | for a looked-up record: IndexError outside `0 <= cid < n`; otherwise success exactly when the model's `train` accepts the record with the one-hot labels, and the submission is that record with 1 at `cid` and 0 elsewhere |
| Proxy.SubmitAsWritten | proxies/base.py:38-45 | as the code does it, for a looked-up record: IndexError exactly when `cid` is outside `-n <= cid < n`; otherwise success exactly when the model's `train` accepts the record with the code's wrapped label vector, its failure passed through; on success the submission is the record with 1 at the wrapped position and 0 elsewhere |
| Proxy.TrainAtAsWritten | proxies/base.py:37-45 | as the code does it, with both ids read: an unknown id is a KeyError, a `cid` outside `-n <= cid < n` is an IndexError, and otherwise the stored record with the wrapped label vector goes to the model's `train`, whose failure is passed through |
| Proxy.Train | proxies/base.py:33-46 | errors come in source order: bad `qid` header, bad `cid` header, unknown id (KeyError), `cid` outside `0 <= cid < n` (IndexError), then the model's own failure; on success the stored record and a one-hot label vector of the stored length go to the model's `train` |
| Proxy.TrainAsWritten | proxies/base.py:33-46 | as the code does it, errors in source order: bad `qid` header, bad `cid` header, unknown id (KeyError), `cid` outside `-n <= cid < n` (IndexError), then the model's own failure; on success the stored record goes to `train` with 1 at the wrapped position and 0 elsewhere |
| Proxy.Step | proxies/base.py:18-19 | one request to `/search` or `/train`: a search is answered by the search handler, with its reply and ledger, and a train by the train handler, with its submission or its error; only a successful search changes the ledger, and it then issues the current counter value |
| Proxy.Run | proxies/base.py:59-60 | across handled requests, each with the collaborators of its own moment, the counter advances by exactly the number of successful searches; the invariant is preserved and no entry is ever removed or changed |
| ProxyProperties.RunIssuesConsecutiveQids | proxies/base.py:59-60 | the successful searches of any run get the ids `next, next+1, ...` in the order their ids are issued (line 59), with no gap and no repeat, ending at the new counter value |
| ProxyProperties.QidsFromFreshProxy | proxies/base.py:16-17 | from a fresh proxy the issued ids are exactly `0 .. n-1`, strictly increasing, and each has its ledger entry |
| ProxyProperties.EchoedHeaders | proxies/base.py:34-35 | `qid` and `cid` headers written with `str()` are read back by the handler as the same two integers |
| ProxyProperties.TrainOnStored | proxies/base.py:37-45 | feedback naming a stored id and an index into its candidates trains on exactly that record, with the one-hot label at the index |
| ProxyProperties.SearchThenTrain | proxies/base.py:33-62 | echoing a search reply's `qid` header with any in-range `cid`, after any other requests and whatever the collaborators became meanwhile, trains on the full stored candidate list with the one-hot label at `cid`, provided the model's `train` then accepts that submission |
| ProxyProperties.TrainRepeatable | proxies/base.py:37-46 | a train request that succeeded builds the same submission after any further requests, and succeeds with it whenever the model's `train` then accepts it |
| ProxyProperties.TrainTwice | proxies/base.py:37-46 | a train request leaves the ledger untouched, so repeating it gives the same reply whenever the model accepts the submission again |
| ProxyProperties.NegativeCidTrainsOnLast | proxies/base.py:35-39 | with headers `qid`, `cid = -1`, the code trains on the stored record with the last candidate marked, while the checked handler fails with IndexError |
| ProxyProperties.WorkedExampleSearch | proxies/base.py:57-60 | backend `[A, B, C]`, ranks `[2, 0, 1]`, `topk = 2`: the reply shows `[C, A]` under id 0 and the ledger keeps `[A, B, C]` |
| ProxyProperties.WorkedExampleTrain | proxies/base.py:37-39 | feedback `qid = 0`, `cid = 2` on the ledger that search leaves trains on `[A, B, C]` with labels `[0, 0, 1]` |

## Left out

- HTTP plumbing is not modelled: `web.BaseRequest`, the `web.Response` object, `Response.NO_CONTENT` and the response `qid` header. A successful train returns what was submitted to the model, and a successful search returns the id as a number. `str(qid)` appears only through `IntHeader.DecimalString`.
- Header lookup is modelled as an exact-key map. aiohttp's case-insensitive, multi-valued header dictionary is not.
- IntHeader.ParseInt: matches `int()` only on strings of ASCII characters. Python also accepts non-ASCII digits and non-ASCII whitespace; the model rejects those strings. CPython 3.11 and later (and 3.7.14, 3.8.14 and the matching releases after them) refuse with ValueError to convert a decimal string of more than 4300 digits, in `int()` and in `str()`. The model does not have that limit, so it reads such a huge `qid` header as an integer (then KeyError) where CPython raises ValueError. `IntHeader.ParseIntString` holds for every integer in the model, but in CPython only below that limit.
- The `client_handler` async context manager and its release of the backend connection on every exit path are not modelled. The backend call is one function that answers or fails.
- `magnify`, `parse`, `rank`, `format` and the model's `train` are parameters. Their own behaviour is not part of this model.
- Route and state registration (`add_route`, `BaseServer.add_state`) is reduced to the two request kinds of `Proxy.Step`.
- Logging and `format_pyobj` are left out (proxies/base.py:41-43, 51, 54-55). The messages are built with `%` before the logger is called, whatever the log level. With a tuple of length other than one as the query, `'TRAIN: %s' % query` and `'RANK: %s' % query` raise TypeError, so the code fails before `train` or before `rank` where the model succeeds. The model assumes that building the log messages never raises.
- Proxy.Run: the collaborators are values, one per request. A `rank` or `train` that mutates in place the candidate list it is given would also change the ledger entry in the code, because `self.queries` stores that same list object (proxies/base.py:60). The model stores an immutable copy, so it assumes the collaborators never mutate their arguments.
- Concurrency is not modelled beyond the sequential `Run`. The issue-and-insert step holds no `await`, as noted above.
- The multiple-inheritance composition of client, model and server is not modelled. The collaborators are passed as one `Collaborators` value.
- The ledger grows without bound, as in the code. No eviction is modelled because the code has none.
- Proxy.Prepare: names the propagated error only for a `magnify` failure. For later stages it states only that the search fails and leaves the ledger alone.

## Findings

| source | as written | input that shows it | evidently intended | confidence | as-written member | corrected member |
|---|---|---|---|---|---|---|
| proxies/base.py:39 | `labels[cid] = 1` accepts a negative `cid` and counts it from the end | a stored query with candidates `[A, B, C]` and headers `qid: 0`, `cid: -1`: the model is trained with labels `[0, 0, 1]` although the client never chose index 2 | `cid` names a position in the served list, so any `cid` outside `0 <= cid < len(candidates)` is refused with IndexError | medium; not executed | ProxyProperties.NegativeCidTrainsOnLast | Proxy.Train |

=== FILE: intheader.dfy ===
/** Reading an integer header the way the train handler does,
    `int(request.headers[name])`, and writing the `qid` header the way the
    search handler does, `str(qid)`.

    Python's `int()` on an ASCII string skips surrounding whitespace (space
    and `\t \n \v \f \r`), accepts one optional sign, then decimal digits in
    which single underscores may sit between two digits; anything else raises
    ValueError. */
module IntHeader {
  import opened Outcomes

  /** The ASCII characters `int()` skips around a number: space and
      `\t \n \v \f \r`. (`str.strip()` also removes 0x1C-0x1F; `int()` does
      not.) */
  predicate IsSpace(c: char) {
    c == ' ' || 9 <= c as int <= 13
  }

  predicate IsDigit(c: char) {
    '0' <= c <= '9'
  }

  /** A character `int()` can accept somewhere in its argument. */
  predicate MayOccur(c: char) {
    IsDigit(c) || c == '_' || c == '+' || c == '-' || IsSpace(c)
  }

  /** Every character of `s` is one `int()` can accept. */
  predicate OnlyIntChars(s: string) {
    forall i :: 0 <= i < |s| ==> MayOccur(s[i])
  }

  predicate HasDigit(s: string) {
    exists i :: 0 <= i < |s| && IsDigit(s[i])
  }

  function StripLeading(s: string): (r: string)
    ensures |r| <= |s| && r == s[|s| - |r|..]
    ensures forall i :: 0 <= i < |s| - |r| ==> IsSpace(s[i])
    ensures |r| > 0 ==> !IsSpace(r[0])
  {
    if |s| > 0 && IsSpace(s[0]) then StripLeading(s[1..]) else s
  }

  function StripTrailing(s: string): (r: string)
    ensures |r| <= |s| && r == s[..|r|]
    ensures forall i :: |r| <= i < |s| ==> IsSpace(s[i])
    ensures |r| > 0 ==> !IsSpace(r[|r| - 1])
  {
    if |s| > 0 && IsSpace(s[|s| - 1]) then StripTrailing(s[..|s| - 1]) else s
  }

  /** Number of whitespace characters `int()` skips at the front. */
  function LeadingSpaces(s: string): (a: nat)
    ensures a <= |s|
  {
    |s| - |StripLeading(s)|
  }

  /** The part of `s` that `int()` reads as a number: `s` with its leading
      and trailing whitespace removed. */
  function Strip(s: string): (r: string)
    ensures PaddedAt(s, LeadingSpaces(s), r)
    ensures |r| > 0 ==> !IsSpace(r[0]) && !IsSpace(r[|r| - 1])
  {
    var t := StripLeading(s);
    var r := StripTrailing(t);
    StripBothEnds(s, t, r);
    r
  }

  /** A prefix `r` of a suffix `t` of `s` is a slice of `s`, and what
      follows `r` in `t` follows it in `s`. */
  lemma StripBothEnds(s: string, t: string, r: string)
    requires |t| <= |s| && t == s[|s| - |t|..]
    requires |r| <= |t| && r == t[..|r|]
    requires forall j :: |r| <= j < |t| ==> IsSpace(t[j])
    ensures r == s[|s| - |t|..|s| - |t| + |r|]
    ensures forall i :: |s| - |t| + |r| <= i < |s| ==> IsSpace(s[i])
  {
    var a := |s| - |t|;
    forall i | a + |r| <= i < |s|
      ensures IsSpace(s[i])
    {
      assert s[i] == t[i - a];
    }
  }

  /** Digits with optional single underscores between two digits: it starts
      and ends with a digit, holds only digits and underscores, and no two
      underscores are adjacent. */
  predicate DigitGroups(s: string) {
    && |s| > 0
    && IsDigit(s[0])
    && IsDigit(s[|s| - 1])
    && (forall i :: 0 <= i < |s| ==> IsDigit(s[i]) || s[i] == '_')
    && (forall i, j :: 0 <= i < |s| && j == i + 1 && j < |s| ==> IsDigit(s[i]) || IsDigit(s[j]))
  }

  /** Value of a digit string, underscores ignored. */
  function DigitsValue(s: string): nat {
    if |s| == 0 then 0
    else if IsDigit(s[|s| - 1]) then
      10 * DigitsValue(s[..|s| - 1]) + (s[|s| - 1] as int - '0' as int)
    else DigitsValue(s[..|s| - 1])
  }

  /** The number a stripped string spells: one optional sign, then digit
      groups. */
  function ParseLiteral(t: string): (r: Option<int>)
    ensures r.Some? ==> OnlyIntChars(t) && HasDigit(t)
  {
    if |t| > 0 && (t[0] == '+' || t[0] == '-') then
      var body := t[1..];
      if DigitGroups(body) then
        assert IsDigit(t[1]);
        Some(if t[0] == '-' then -(DigitsValue(body) as int) else DigitsValue(body))
      else None
    else if DigitGroups(t) then
      assert IsDigit(t[0]);
      Some(DigitsValue(t))
    else None
  }

  /** `int(s)` for a `str` argument: the integer, or None where Python raises
      ValueError. */
  function ParseInt(s: string): (r: Option<int>)
    ensures r.Some? ==> OnlyIntChars(s) && HasDigit(s)
  {
    var r := ParseLiteral(Strip(s));
    if r.Some? then
      PaddedKeepsLiteral(s, LeadingSpaces(s), Strip(s));
      r
    else r
  }

  /** `s` is the part `t` starting at `a` with whitespace on both sides. */
  predicate PaddedAt(s: string, a: nat, t: string) {
    && a + |t| <= |s|
    && t == s[a..a + |t|]
    && (forall i :: 0 <= i < a ==> IsSpace(s[i]))
    && (forall i :: a + |t| <= i < |s| ==> IsSpace(s[i]))
  }

  /** Only whitespace lies around the part `t`, so if `t` holds only
      acceptable characters and some digit, so does `s`. */
  lemma PaddedKeepsLiteral(s: string, a: nat, t: string)
    requires PaddedAt(s, a, t)
    requires OnlyIntChars(t) && HasDigit(t)
    ensures OnlyIntChars(s) && HasDigit(s)
  {
    forall i | 0 <= i < |s|
      ensures MayOccur(s[i])
    {
      if a <= i < a + |t| {
        assert s[i] == t[i - a];
      }
    }
    var j :| 0 <= j < |t| && IsDigit(t[j]);
    assert s[a + j] == t[j];
  }

  /** A string padded around `t` is the concatenation of its two whitespace
      runs and `t`. */
  lemma PaddedSplits(s: string, a: nat, t: string)
    requires PaddedAt(s, a, t)
    ensures s == s[..a] + t + s[a + |t|..]
    ensures AllSpace(s[..a]) && AllSpace(s[a + |t|..])
  {
    assert s == s[..a] + s[a..a + |t|] + s[a + |t|..];
  }

  /** `request.headers[name]` converted with `int()`: a missing header raises
      KeyError, a value that is not an integer raises ValueError. */
  function HeaderInt(headers: map<string, string>, name: string): (r: Result<int>)
    ensures name !in headers ==> r == Err(MissingHeader(name))
    ensures name in headers && ParseInt(headers[name]).None? ==> r == Err(NotAnInteger(name))
    ensures r.Ok? <==> name in headers && ParseInt(headers[name]).Some?
    ensures r.Ok? ==> r.value == ParseInt(headers[name]).value
  {
    if name !in headers then Err(MissingHeader(name))
    else match ParseInt(headers[name])
      case None => Err(NotAnInteger(name))
      case Some(v) => Ok(v)
  }

  function DigitChar(d: nat): (c: char)
    requires d < 10
    ensures IsDigit(c)
    ensures c as int - '0' as int == d
  {
    ('0' as int + d) as char
  }

  /** `str(n)` for a non-negative integer. */
  function DecimalString(n: nat): (s: string)
    ensures |s| > 0
    ensures forall i :: 0 <= i < |s| ==> IsDigit(s[i])
    ensures DigitsValue(s) == n
  {
    if n < 10 then [DigitChar(n)]
    else
      var prefix := DecimalString(n / 10);
      var s := prefix + [DigitChar(n % 10)];
      assert s[..|s| - 1] == prefix;
      s
  }

  /** `str(i)` for any integer. */
  function IntString(i: int): (s: string)
    ensures |s| > 0
  {
    if i < 0 then "-" + DecimalString(-i) else DecimalString(i)
  }

  lemma StripUnchanged(s: string)
    requires |s| > 0 && !IsSpace(s[0]) && !IsSpace(s[|s| - 1])
    ensures Strip(s) == s
  {
  }

  /** Reading back what `str()` wrote gives the same integer. */
  lemma ParseIntString(i: int)
    ensures ParseInt(IntString(i)) == Some(i)
  {
    var s := IntString(i);
    StripUnchanged(s);
    if i < 0 {
      assert s[1..] == DecimalString(-i);
    }
  }

  predicate AllSpace(s: string) {
    forall i :: 0 <= i < |s| ==> IsSpace(s[i])
  }

  lemma {:induction false} StripLeadingSkipsSpace(p: string, u: string)
    requires AllSpace(p)
    requires |u| > 0 && !IsSpace(u[0])
    ensures StripLeading(p + u) == u
    decreases |p|
  {
    if |p| > 0 {
      assert (p + u)[1..] == p[1..] + u;
      StripLeadingSkipsSpace(p[1..], u);
    } else {
      assert p + u == u;
    }
  }

  lemma {:induction false} StripTrailingSkipsSpace(t: string, q: string)
    requires AllSpace(q)
    requires |t| > 0 && !IsSpace(t[|t| - 1])
    ensures StripTrailing(t + q) == t
    decreases |q|
  {
    if |q| > 0 {
      assert (t + q)[..|t + q| - 1] == t + q[..|q| - 1];
      StripTrailingSkipsSpace(t, q[..|q| - 1]);
    } else {
      assert t + q == t;
    }
  }

  /** `int()` reads `str(i)` back as `i` whatever whitespace surrounds it. */
  lemma ParseIntPadded(p: string, i: int, q: string)
    requires AllSpace(p) && AllSpace(q)
    ensures ParseInt(p + IntString(i) + q) == Some(i)
  {
    var t := IntString(i);
    PaddedStrip(p, t, q);
    StripUnchanged(t);
    SameStripSameParse(p + t + q, t);
    ParseIntString(i);
  }

  lemma PaddedStrip(p: string, t: string, q: string)
    requires AllSpace(p) && AllSpace(q)
    requires |t| > 0 && !IsSpace(t[0]) && !IsSpace(t[|t| - 1])
    ensures Strip(p + t + q) == t
  {
    assert p + t + q == p + (t + q);
    StripLeadingSkipsSpace(p, t + q);
    StripTrailingSkipsSpace(t, q);
  }

  lemma SameStripSameParse(a: string, b: string)
    requires Strip(a) == Strip(b)
    ensures ParseInt(a) == ParseInt(b)
  {
  }

  /** The literals `int()` accepts: optional whitespace, at most one sign,
      digit groups joined by single underscores (leading zeros allowed),
      optional whitespace. The value ignores underscores and leading zeros. */
  lemma ParseIntLiteral(p: string, sign: string, d: string, q: string)
    requires AllSpace(p) && AllSpace(q)
    requires sign == "" || sign == "+" || sign == "-"
    requires DigitGroups(d)
    ensures ParseInt(p + sign + d + q)
      == Some(if sign == "-" then -(DigitsValue(d) as int) else DigitsValue(d))
  {
    var t := sign + d;
    SignedEnds(sign, d);
    Regroup(p, sign, d, q);
    PaddedStrip(p, t, q);
    ParseLiteralSigned(sign, d);
    ParseIntOfStripped(p + sign + d + q, t);
  }

  lemma ParseIntOfStripped(s: string, t: string)
    requires Strip(s) == t
    ensures ParseInt(s) == ParseLiteral(t)
  {
  }

  lemma SignedEnds(sign: string, d: string)
    requires sign == "" || sign == "+" || sign == "-"
    requires DigitGroups(d)
    ensures |sign + d| > 0 && !IsSpace((sign + d)[0]) && !IsSpace((sign + d)[|sign + d| - 1])
  {
    var t := sign + d;
    assert t[|t| - 1] == d[|d| - 1];
  }

  lemma Regroup(p: string, sign: string, d: string, q: string)
    ensures p + sign + d + q == p + (sign + d) + q
  {
  }

  lemma ParseIntSigned(sign: string, d: string)
    requires sign == "" || sign == "+" || sign == "-"
    requires DigitGroups(d)
    ensures ParseInt(sign + d)
      == Some(if sign == "-" then -(DigitsValue(d) as int) else DigitsValue(d))
  {
    var t := sign + d;
    assert t[|t| - 1] == d[|d| - 1];
    StripUnchanged(t);
    ParseLiteralSigned(sign, d);
  }

  lemma ParseLiteralSigned(sign: string, d: string)
    requires sign == "" || sign == "+" || sign == "-"
    requires DigitGroups(d)
    ensures ParseLiteral(sign + d)
      == Some(if sign == "-" then -(DigitsValue(d) as int) else DigitsValue(d))
  {
    var t := sign + d;
    if sign != "" {
      assert t[1..] == d;
    } else {
      assert t == d;
    }
  }

  /** Conversely, every string `int()` accepts is such a literal: its
      stripped part is digit groups, possibly after one sign, and the value
      is read from those digits. */
  lemma ParseIntAcceptsOnlyLiterals(s: string)
    requires ParseInt(s).Some?
    ensures var a := LeadingSpaces(s);
      var t := Strip(s);
      && s == s[..a] + t + s[a + |t|..]
      && AllSpace(s[..a]) && AllSpace(s[a + |t|..])
      && (|| (DigitGroups(t) && ParseInt(s).value == DigitsValue(t))
          || (&& |t| > 0 && (t[0] == '+' || t[0] == '-') && DigitGroups(t[1..])
              && ParseInt(s).value
                   == (if t[0] == '-' then -(DigitsValue(t[1..]) as int) else DigitsValue(t[1..]))))
  {
    var a := LeadingSpaces(s);
    var t := Strip(s);
    PaddedSplits(s, a, t);
    assert ParseInt(s) == ParseLiteral(t);
    LiteralShape(t);
  }

  /** A literal `ParseLiteral` accepts is digit groups, possibly after one
      sign, with the value those digits spell. */
  lemma LiteralShape(t: string)
    requires ParseLiteral(t).Some?
    ensures || (DigitGroups(t) && ParseLiteral(t).value == DigitsValue(t))
            || (&& |t| > 0 && (t[0] == '+' || t[0] == '-') && DigitGroups(t[1..])
                && ParseLiteral(t).value
                     == (if t[0] == '-' then -(DigitsValue(t[1..]) as int) else DigitsValue(t[1..])))
  {
  }

  /** Zero padding, a plus sign and an underscore together: `" +0_07 "`. */
  lemma ParseIntPaddedLiteral(s: string)
    requires s == " +0_07 "
    ensures ParseInt(s) == Some(7)
  {
    var d := "0_07";
    ValueOfZeroSevenDigits(d);
    assert s == " " + "+" + d + " ";
    ParseIntLiteral(" ", "+", d, " ");
  }

  lemma ValueOfZeroSevenDigits(d: string)
    requires d == "0_07"
    ensures DigitGroups(d)
    ensures DigitsValue(d) == 7
  {
    var d1, d2, d3 := d[..1], d[..2], d[..3];
    assert d1 == "0" && d1[..0] == "";
    assert d2 == "0_" && d2[..1] == d1;
    assert d3 == "0_0" && d3[..2] == d2;
    assert d[..|d| - 1] == d3;
    assert DigitsValue(d1) == 0;
    assert DigitsValue(d2) == 0;
    assert DigitsValue(d3) == 0;
  }

  /** A sign inside the digits is not a literal: `"1-2"` is refused. */
  lemma ParseIntRejectsInnerSign()
    ensures ParseInt("1-2") == None
  {
    var s := "1-2";
    StripUnchanged(s);
    assert !IsDigit(s[1]) && s[1] != '_';
  }

  /** A control character such as the file separator 0x1C next to the
      digits is not whitespace to `int()`, so the value is refused. */
  lemma ParseIntRejectsSeparator(i: int)
    ensures ParseInt([28 as char] + IntString(i)) == None
    ensures ParseInt(IntString(i) + [31 as char]) == None
  {
    var s := [28 as char] + IntString(i);
    assert !MayOccur(s[0]);
    var s' := IntString(i) + [31 as char];
    assert !MayOccur(s'[|s'| - 1]);
  }
}

=== FILE: labels.dfy ===
/** Label synthesis of the train handler:
    `labels = [0] * len(candidates); labels[cid] = 1`. */
module Labels {
  import opened Outcomes
  import opened PySeq

  /** `[0] * n`. */
  function Zeros(n: nat): (r: seq<int>)
    ensures |r| == n
    ensures forall k :: 0 <= k < n ==> r[k] == 0
  {
    seq(n, k => 0)
  }

  /** Sum of a label vector. */
  function Sum(s: seq<int>): int {
    if |s| == 0 then 0 else Sum(s[..|s| - 1]) + s[|s| - 1]
  }

  /** Number of entries equal to one. */
  function CountOnes(s: seq<int>): nat {
    if |s| == 0 then 0 else CountOnes(s[..|s| - 1]) + (if s[|s| - 1] == 1 then 1 else 0)
  }

  /** One label per candidate, the chosen one positive and every other one
      zero; a chosen index outside `0 <= cid < n` is refused with IndexError. */
  function OneHot(n: nat, cid: int): (r: Result<seq<int>>)
    ensures r.Ok? <==> 0 <= cid < n
    ensures r.Err? ==> r.error == IndexOutOfRange
    ensures r.Ok? ==> |r.value| == n
    ensures r.Ok? ==> r.value[cid] == 1
    ensures r.Ok? ==> forall k :: 0 <= k < n && k != cid ==> r.value[k] == 0
  {
    if 0 <= cid < n then Ok(Zeros(n)[cid := 1]) else Err(IndexOutOfRange)
  }

  /** The labels exactly as the handler builds them: Python's list assignment
      accepts a negative `cid` and counts it from the end. */
  function LabelsAsWritten(n: nat, cid: int): (r: Result<seq<int>>)
    ensures r.Ok? <==> InRange(cid, n)
    ensures r.Err? ==> r.error == IndexOutOfRange
    ensures r.Ok? ==> |r.value| == n
    ensures r.Ok? ==> forall k :: 0 <= k < n ==>
      r.value[k] == (if k == Wrap(cid, n) then 1 else 0)
  {
    if InRange(cid, n) then Ok(Zeros(n)[Wrap(cid, n) := 1]) else Err(IndexOutOfRange)
  }

  /** Position of the first one in a label vector, `|s|` when there is none. */
  function FirstOne(s: seq<int>): (k: nat)
    ensures k <= |s|
    ensures k < |s| ==> s[k] == 1
    ensures forall j :: 0 <= j < k ==> s[j] != 1
  {
    if |s| == 0 then 0
    else if s[0] == 1 then 0
    else 1 + FirstOne(s[1..])
  }

  lemma {:induction false} SumOfZeros(s: seq<int>)
    requires forall k :: 0 <= k < |s| ==> s[k] == 0
    ensures Sum(s) == 0
    ensures CountOnes(s) == 0
  {
    if |s| > 0 {
      SumOfZeros(s[..|s| - 1]);
    }
  }

  /** A one-hot vector holds exactly one positive label and sums to one. */
  lemma {:induction false} OneHotSumsToOne(n: nat, cid: int)
    requires 0 <= cid < n
    ensures Sum(OneHot(n, cid).value) == 1
    ensures CountOnes(OneHot(n, cid).value) == 1
  {
    var s := OneHot(n, cid).value;
    SumSplit(s, cid);
    SumOfZeros(s[..cid]);
    SumOfZeros(s[cid + 1..]);
  }

  lemma {:induction false} SumSplit(s: seq<int>, i: nat)
    requires i < |s|
    ensures Sum(s) == Sum(s[..i]) + s[i] + Sum(s[i + 1..])
    ensures CountOnes(s) == CountOnes(s[..i]) + (if s[i] == 1 then 1 else 0) + CountOnes(s[i + 1..])
    decreases |s|
  {
    if i == |s| - 1 {
      assert s[..|s| - 1] == s[..i];
      assert s[i + 1..] == [];
    } else {
      var init := s[..|s| - 1];
      SumSplit(init, i);
      assert init[..i] == s[..i];
      assert init[i + 1..] == s[i + 1..|s| - 1];
      var rest := s[i + 1..];
      assert rest[..|rest| - 1] == s[i + 1..|s| - 1];
    }
  }

  /** The chosen index can be read back from the label vector. */
  lemma OneHotDecodes(n: nat, cid: int)
    requires 0 <= cid < n
    ensures FirstOne(OneHot(n, cid).value) == cid
  {
  }

  /** Different chosen indices give different label vectors. */
  lemma OneHotInjective(n: nat, c1: int, c2: int)
    requires OneHot(n, c1).Ok? && OneHot(n, c2).Ok?
    requires OneHot(n, c1) == OneHot(n, c2)
    ensures c1 == c2
  {
    OneHotDecodes(n, c1);
    OneHotDecodes(n, c2);
  }

  /** For a non-negative index the handler's labels are the one-hot vector. */
  lemma AsWrittenAgreesOnNonNegative(n: nat, cid: int)
    requires 0 <= cid
    ensures LabelsAsWritten(n, cid) == OneHot(n, cid)
  {
    if 0 <= cid < n {
      assert LabelsAsWritten(n, cid).value == OneHot(n, cid).value;
    }
  }

  /** The handler accepts `cid == -1` for any non-empty candidate list and
      marks the LAST candidate positive, where a chosen-index check fails. */
  lemma NegativeCidMarksLast(n: nat)
    requires n > 0
    ensures LabelsAsWritten(n, -1).Ok?
    ensures LabelsAsWritten(n, -1).value == OneHot(n, n - 1).value
    ensures OneHot(n, -1).Err?
  {
    assert LabelsAsWritten(n, -1).value == OneHot(n, n - 1).value;
  }
}

=== FILE: ledger.dfy ===
/** The proxy's query ledger: the counter `itertools.count()` and the dict
    `queries` from query id to the (query, candidates) pair that was served
    under it. */
module QueryLedger {
  import opened Outcomes

  /** What a successful search remembers: the parsed query and the FULL
      candidate list the backend returned, before truncation to `topk`. */
  datatype Record<Q, C> = Record(query: Q, candidates: seq<C>)

  /** `next` is the value the counter hands out next. */
  datatype Ledger<Q, C> = Ledger(next: nat, queries: map<nat, Record<Q, C>>)

  /** A query id has an entry exactly when it has been issued. */
  ghost predicate Valid<Q, C>(l: Ledger<Q, C>) {
    forall k: nat :: k in l.queries <==> k < l.next
  }

  /** The ledger of a freshly constructed proxy. */
  function Empty<Q, C>(): (l: Ledger<Q, C>)
    ensures Valid(l)
    ensures l.next == 0
    ensures forall k: nat :: k !in l.queries
  {
    Ledger(0, map[])
  }

  /** `qid = next(self.counter); self.queries[qid] = record`, one atomic step:
      the id is the current counter value, the counter moves on by one, the
      record is stored under the id and every other entry is kept. */
  function Issue<Q, C>(l: Ledger<Q, C>, record: Record<Q, C>): (r: (nat, Ledger<Q, C>))
    ensures r.0 == l.next
    ensures r.1.next == l.next + 1
    ensures r.0 in r.1.queries && r.1.queries[r.0] == record
    ensures forall k :: k != r.0 ==> (k in r.1.queries <==> k in l.queries)
    ensures forall k :: k in l.queries && k != r.0 ==> r.1.queries[k] == l.queries[k]
    ensures Valid(l) ==> r.0 !in l.queries
    ensures Valid(l) ==> Valid(r.1)
  {
    (l.next, Ledger(l.next + 1, l.queries[l.next := record]))
  }

  /** `self.queries[qid]`: the stored record, or KeyError for an id that has
      no entry (a negative id never has one). */
  function Lookup<Q, C>(l: Ledger<Q, C>, qid: int): (r: Result<Record<Q, C>>)
    ensures r.Ok? <==> 0 <= qid && qid in l.queries
    ensures r.Ok? ==> r.value == l.queries[qid]
    ensures r.Err? ==> r.error == UnknownQid(qid)
    ensures Valid(l) ==> (r.Ok? <==> 0 <= qid < l.next)
  {
    if 0 <= qid && qid in l.queries then Ok(l.queries[qid]) else Err(UnknownQid(qid))
  }

  /** Looking up the id just issued yields the record just stored; every
      other id looks up exactly as before. */
  lemma IssueThenLookup<Q, C>(l: Ledger<Q, C>, record: Record<Q, C>, other: int)
    requires Valid(l)
    ensures var (qid, l') := Issue(l, record);
      && Lookup(l', qid) == Ok(record)
      && Lookup(l, qid) == Err(UnknownQid(qid))
      && (other != qid ==> Lookup(l', other) == Lookup(l, other))
  {
  }

  /** Every entry of `l` is still present, unchanged, in `l'`. */
  ghost predicate Extends<Q, C>(l: Ledger<Q, C>, l': Ledger<Q, C>) {
    && l.next <= l'.next
    && forall k :: k in l.queries ==> k in l'.queries && l'.queries[k] == l.queries[k]
  }
}

=== FILE: outcomes.dfy ===
/** Failure-compatible result types shared by the proxy model, and the
    error taxonomy the proxy's two handlers can raise. */
module Outcomes {

  /** The exceptions the request pipeline raises, named by what they mean. */
  datatype Error =
    | MissingHeader(name: string)   // KeyError on `request.headers[name]`
    | NotAnInteger(name: string)    // ValueError from `int(...)` of a header value
    | UnknownQid(qid: int)          // KeyError on the query ledger
    | IndexOutOfRange               // IndexError on a Python list
    | Upstream(detail: string)      // any failure raised inside a collaborator

  datatype Option<+T> = None | Some(value: T)

  /** Either a value or the error that stopped the computation; usable with `:-`. */
  datatype Result<+T> = Ok(value: T) | Err(error: Error) {

    predicate IsFailure() {
      Err?
    }

    function PropagateFailure<U>(): Result<U>
      requires Err?
    {
      Err(error)
    }

    function Extract(): T
      requires Ok?
    {
      value
    }
  }
}

=== FILE: properties.dfy ===
/** Properties of the proxy across several requests: how query ids are
    issued, that a served query can always be trained on afterwards, and that
    training reads the ledger without changing it. */
module ProxyProperties {
  import opened Outcomes
  import opened IntHeader
  import opened Reranking
  import opened Labels
  import opened QueryLedger
  import opened Proxy

  /** The ids of the successful searches among some replies, in order. */
  function IssuedQids<Q, C, Out>(replies: seq<Reply<Q, C, Out>>): seq<nat> {
    if |replies| == 0 then []
    else IssuedQids(replies[..|replies| - 1])
         + (if replies[|replies| - 1].Searched? then [replies[|replies| - 1].served.qid] else [])
  }

  /** `[a, a + 1, ..., b - 1]`. */
  function Range(a: nat, b: nat): (r: seq<nat>)
    requires a <= b
    ensures |r| == b - a
    ensures forall i :: 0 <= i < |r| ==> r[i] == a + i
  {
    seq(b - a, i => a + i)
  }

  /** The successful searches of a run receive the ids `l.next`,
      `l.next + 1`, ... in the order their ids are issued, with no gap and no
      repetition, and the counter ends just past the last of them. */
  lemma {:induction false} RunIssuesConsecutiveQids<Req, Target, Resp, Q, C, Out>(
    l: Ledger<Q, C>, envs: seq<Collaborators<Req, Target, Resp, Q, C, Out>>, rqs: seq<Request<Req>>)
    requires |envs| == |rqs|
    ensures l.next <= Run(l, envs, rqs).1.next
    ensures IssuedQids(Run(l, envs, rqs).0) == Range(l.next, Run(l, envs, rqs).1.next)
    decreases |rqs|
  {
    if |rqs| > 0 {
      var init := rqs[..|rqs| - 1];
      var initEnvs := envs[..|envs| - 1];
      RunIssuesConsecutiveQids(l, initEnvs, init);
      var (replies, mid) := Run(l, initEnvs, init);
      var (last, l') := Step(mid, envs[|envs| - 1], rqs[|rqs| - 1]);
      assert Run(l, envs, rqs) == (replies + [last], l');
      IssuedQidsSnoc(replies, last);
      if last.Searched? {
        RangeSnoc(l.next, mid.next);
      }
    }
  }

  lemma IssuedQidsSnoc<Q, C, Out>(replies: seq<Reply<Q, C, Out>>, last: Reply<Q, C, Out>)
    ensures IssuedQids(replies + [last])
      == IssuedQids(replies) + (if last.Searched? then [last.served.qid] else [])
  {
    var all := replies + [last];
    assert all[..|all| - 1] == replies;
  }

  lemma RangeSnoc(a: nat, b: nat)
    requires a <= b
    ensures Range(a, b + 1) == Range(a, b) + [b]
  {
  }

  /** From a freshly constructed proxy the issued ids are exactly
      `0, 1, ..., n - 1`, strictly increasing, and each has its ledger entry. */
  lemma QidsFromFreshProxy<Req, Target, Resp, Q, C, Out>(
    envs: seq<Collaborators<Req, Target, Resp, Q, C, Out>>, rqs: seq<Request<Req>>)
    requires |envs| == |rqs|
    ensures var (replies, l) := Run(Empty<Q, C>(), envs, rqs);
      && IssuedQids(replies) == Range(0, l.next)
      && (forall i, j :: 0 <= i < j < |IssuedQids(replies)| ==> IssuedQids(replies)[i] < IssuedQids(replies)[j])
      && (forall i :: 0 <= i < |IssuedQids(replies)| ==> IssuedQids(replies)[i] in l.queries)
  {
    RunIssuesConsecutiveQids(Empty<Q, C>(), envs, rqs);
  }

  /** Headers a client writes with `str()` read back as the same ids. */
  lemma EchoedHeaders(qid: int, cid: int)
    ensures HeaderInt(map["qid" := IntString(qid), "cid" := IntString(cid)], "qid") == Ok(qid)
    ensures HeaderInt(map["qid" := IntString(qid), "cid" := IntString(cid)], "cid") == Ok(cid)
  {
    ParseIntString(qid);
    ParseIntString(cid);
  }

  /** Feedback naming a stored id and an index into its candidates trains
      on that record with the one-hot label at the index. */
  lemma TrainOnStored<Req, Target, Resp, Q, C, Out>(
    l: Ledger<Q, C>, env: Collaborators<Req, Target, Resp, Q, C, Out>, qid: nat, cid: nat)
    requires qid in l.queries && cid < |l.queries[qid].candidates|
    requires var rec := l.queries[qid];
      env.train(rec.query, rec.candidates, OneHot(|rec.candidates|, cid).value).Ok?
    ensures var rec := l.queries[qid];
      Train(l, env, map["qid" := IntString(qid), "cid" := IntString(cid)])
        == Ok(Submitted(rec.query, rec.candidates, OneHot(|rec.candidates|, cid).value))
  {
    EchoedHeaders(qid, cid);
    assert Lookup(l, qid) == Ok(l.queries[qid]);
  }

  /** Round trip: a client that echoes the `qid` header of a search reply,
      with any index into the stored candidates, gets a train call on the
      FULL stored candidate list with a one-hot label at that index, however
      many other requests were handled in between and whatever the
      collaborators became meanwhile, provided the model's `train` at that
      moment accepts the submission. */
  lemma SearchThenTrain<Req, Target, Resp, Q, C, Out>(
    l: Ledger<Q, C>, env: Collaborators<Req, Target, Resp, Q, C, Out>, req: Req,
    envs: seq<Collaborators<Req, Target, Resp, Q, C, Out>>, later: seq<Request<Req>>,
    envNow: Collaborators<Req, Target, Resp, Q, C, Out>, cid: nat)
    requires Valid(l)
    requires |envs| == |later|
    requires Search(l, env, req).0.Ok?
    requires cid < |Search(l, env, req).1.queries[l.next].candidates|
    requires var rec := Search(l, env, req).1.queries[l.next];
      envNow.train(rec.query, rec.candidates, OneHot(|rec.candidates|, cid).value).Ok?
    ensures var (res, l1) := Search(l, env, req);
      var rec := l1.queries[res.value.qid];
      var headers := map["qid" := IntString(res.value.qid), "cid" := IntString(cid)];
      Train(Run(l1, envs, later).1, envNow, headers)
        == Ok(Submitted(rec.query, rec.candidates, OneHot(|rec.candidates|, cid).value))
  {
    var (res, l1) := Search(l, env, req);
    var qid := res.value.qid;
    var l2 := Run(l1, envs, later).1;
    assert Extends(l1, l2);
    assert l2.queries[qid] == l1.queries[qid];
    TrainOnStored(l2, envNow, qid, cid);
  }

  /** Training leaves the ledger in place: a train request that succeeded
      builds the same submission again after any further requests, and
      succeeds with it whenever the model's `train` then accepts it. */
  lemma TrainRepeatable<Req, Target, Resp, Q, C, Out>(
    l: Ledger<Q, C>, env: Collaborators<Req, Target, Resp, Q, C, Out>, headers: map<string, string>,
    envs: seq<Collaborators<Req, Target, Resp, Q, C, Out>>, later: seq<Request<Req>>,
    envNow: Collaborators<Req, Target, Resp, Q, C, Out>)
    requires Valid(l)
    requires |envs| == |later|
    requires Train(l, env, headers).Ok?
    requires var sub := Train(l, env, headers).value;
      envNow.train(sub.query, sub.candidates, sub.labels).Ok?
    ensures Train(Run(l, envs, later).1, envNow, headers) == Train(l, env, headers)
  {
    var qid := HeaderInt(headers, "qid").value;
    var l2 := Run(l, envs, later).1;
    assert Extends(l, l2);
    assert l2.queries[qid] == l.queries[qid];
  }

  /** A train request changes nothing, so the same feedback sent again
      right away gives the same reply whenever the model accepts it again. */
  lemma TrainTwice<Req, Target, Resp, Q, C, Out>(
    l: Ledger<Q, C>, env: Collaborators<Req, Target, Resp, Q, C, Out>,
    envNow: Collaborators<Req, Target, Resp, Q, C, Out>, headers: map<string, string>)
    requires Step(l, env, TrainRequest(headers)).0.Trained?
    requires var sub := Step(l, env, TrainRequest(headers)).0.submitted;
      envNow.train(sub.query, sub.candidates, sub.labels).Ok?
    ensures var (first, l1) := Step(l, env, TrainRequest(headers));
      var (second, l2) := Step(l1, envNow, TrainRequest(headers));
      first == second && l1 == l && l2 == l
  {
    var sub := Step(l, env, TrainRequest(headers)).0.submitted;
    assert Train(l, env, headers) == Ok(sub);
  }

  /** The handler as written accepts `cid = -1` and trains with the LAST
      candidate marked relevant; the chosen-index check refuses it. */
  lemma NegativeCidTrainsOnLast<Req, Target, Resp, Q, C, Out>(
    l: Ledger<Q, C>, env: Collaborators<Req, Target, Resp, Q, C, Out>, qid: nat)
    requires qid in l.queries && |l.queries[qid].candidates| > 0
    requires var rec := l.queries[qid];
      env.train(rec.query, rec.candidates, OneHot(|rec.candidates|, |rec.candidates| - 1).value).Ok?
    ensures var rec := l.queries[qid];
      var headers := map["qid" := IntString(qid), "cid" := IntString(-1)];
      && TrainAsWritten(l, env, headers)
           == Ok(Submitted(rec.query, rec.candidates, OneHot(|rec.candidates|, |rec.candidates| - 1).value))
      && Train(l, env, headers) == Err(IndexOutOfRange)
  {
    var headers := map["qid" := IntString(qid), "cid" := IntString(-1)];
    var rec := l.queries[qid];
    var n := |rec.candidates|;
    EchoedHeaders(qid, -1);
    assert Lookup(l, qid) == Ok(rec);
    NegativeCidMarksLast(n);
    assert LabelsAsWritten(n, -1) == Ok(OneHot(n, n - 1).value);
    assert OneHot(n, -1) == Err(IndexOutOfRange);
  }

  /** Collaborators for a worked example: the backend returns `[A, B, C]`,
      the model ranks them `[2, 0, 1]`, `topk` is 2. */
  function ExampleEnv(): Collaborators<string, (), string, string, char, string> {
    Collaborators(
      req => Ok((2, ())),
      target => Ok("response"),
      (req, resp) => Ok(("query", "ABC")),
      (q, cands) => Ok([2, 0, 1]),
      (resp, shown) => Ok(shown),
      (q, cands, labels) => Ok(()))
  }

  /** The worked example, search half: the reply shows `[C, A]` under
      id 0 and the ledger keeps all of `[A, B, C]`. */
  lemma WorkedExampleSearch()
    ensures Search(Empty(), ExampleEnv(), "search").0 == Ok(Served("CA", 0, "CA"))
    ensures Search(Empty(), ExampleEnv(), "search").1 == Ledger(1, map[0 := Record("query", "ABC")])
  {
    RerankTopK("ABC", [2, 0, 1], 2);
    var shown := Rerank("ABC", [2, 0, 1], 2).value;
    assert shown[0] == 'C' && shown[1] == 'A';
    assert shown == "CA";
    assert Prepare(ExampleEnv(), "search") == Ok(Prepared("CA", Record("query", "ABC"), "CA"));
  }

  /** The worked example, train half: feedback `qid=0, cid=2` trains on
      `[A, B, C]` with labels `[0, 0, 1]`. */
  lemma WorkedExampleTrain(l: Ledger<string, char>)
    requires l == Search(Empty(), ExampleEnv(), "search").1
    ensures Train(l, ExampleEnv(), map["qid" := "0", "cid" := "2"])
      == Ok(Submitted("query", "ABC", [0, 0, 1]))
  {
    WorkedExampleSearch();
    assert IntString(0) == "0" && IntString(2) == "2";
    WorkedExampleLabels();
    TrainOnStored(l, ExampleEnv(), 0, 2);
  }

  lemma WorkedExampleLabels()
    ensures OneHot(3, 2) == Ok([0, 0, 1])
  {
    var labels := OneHot(3, 2).value;
    assert |labels| == 3 && labels[0] == 0 && labels[1] == 0 && labels[2] == 1;
    assert labels == [0, 0, 1];
  }
}

=== FILE: proxy.dfy ===
/** The two request handlers of `BaseProxy` over the query ledger.

    Everything the proxy delegates is a parameter: `magnify` (request to
    `topk` and backend call), the backend client call, `parse`, `rank`,
    `format` and the model's `train`. Each is a total function that either
    answers or fails; a failure propagates to the caller unchanged. */
module Proxy {
  import opened Outcomes
  import opened PySeq
  import opened IntHeader
  import opened Reranking
  import opened Labels
  import opened QueryLedger

  /** The collaborators the handlers call, as pure functions. `Target` stands
      for the `(method, ext_url, data)` triple of the backend call. */
  datatype Collaborators<-Req, !Target, !Resp, !Q, !C, Out> = Collaborators(
    magnify: Req -> Result<(int, Target)>,
    call: Target -> Result<Resp>,
    parse: (Req, Resp) -> Result<(Q, seq<C>)>,
    rank: (Q, seq<C>) -> Result<seq<int>>,
    format: (Resp, seq<C>) -> Result<Out>,
    train: (Q, seq<C>, seq<int>) -> Result<()>)

  /** What the search handler computes before it touches the ledger. */
  datatype Prepared<Q, C, Out> = Prepared(body: Out, record: Record<Q, C>, shown: seq<C>)

  /** A successful search reply: the formatted body, the `qid` header value
      and the re-ranked candidates the body was formatted from. */
  datatype Served<C, Out> = Served(body: Out, qid: nat, shown: seq<C>)

  /** What a successful train request handed to the model's `train`. */
  datatype Submitted<Q, C> = Submitted(query: Q, candidates: seq<C>, labels: seq<int>)

  /** The backend's answer to `req`, as `(topk, response, record, ranks)`,
      when magnify, the client call, parse and rank all succeed. */
  datatype Plan<Resp, Q, C> = Plan(topk: int, response: Resp, record: Record<Q, C>, ranks: seq<int>)

  function PlanOf<Req, Target, Resp, Q, C, Out>(
    env: Collaborators<Req, Target, Resp, Q, C, Out>, req: Req): Option<Plan<Resp, Q, C>>
  {
    match env.magnify(req)
    case Err(_) => None
    case Ok(m) =>
      match env.call(m.1)
      case Err(_) => None
      case Ok(resp) =>
        match env.parse(req, resp)
        case Err(_) => None
        case Ok(p) =>
          match env.rank(p.0, p.1)
          case Err(_) => None
          case Ok(ranks) => Some(Plan(m.0, resp, Record(p.0, p.1), ranks))
  }

  /** Lines 49-58 of the search handler: everything up to and including
      `format`. The record it yields holds the full candidate list from
      `parse`; the shown list is that list re-ranked and cut to `topk`. */
  function Prepare<Req, Target, Resp, Q, C, Out>(
    env: Collaborators<Req, Target, Resp, Q, C, Out>, req: Req): (r: Result<Prepared<Q, C, Out>>)
    ensures r.Ok? <==>
      && PlanOf(env, req).Some?
      && Rerank(PlanOf(env, req).value.record.candidates, PlanOf(env, req).value.ranks, PlanOf(env, req).value.topk).Ok?
      && env.format(PlanOf(env, req).value.response,
           Rerank(PlanOf(env, req).value.record.candidates, PlanOf(env, req).value.ranks, PlanOf(env, req).value.topk).value).Ok?
    ensures r.Ok? ==>
      var plan := PlanOf(env, req).value;
      && r.value.record == plan.record
      && Rerank(plan.record.candidates, plan.ranks, plan.topk) == Ok(r.value.shown)
      && env.format(plan.response, r.value.shown) == Ok(r.value.body)
    ensures env.magnify(req).Err? ==> r == Err(env.magnify(req).error)
  {
    var m :- env.magnify(req);
    var resp :- env.call(m.1);
    var parsed :- env.parse(req, resp);
    var ranks :- env.rank(parsed.0, parsed.1);
    var reranked :- Rerank(parsed.1, ranks, m.0);
    var body :- env.format(resp, reranked);
    Ok(Prepared(body, Record(parsed.0, parsed.1), reranked))
  }

  /** The search handler. On success the reply carries the current counter
      value as its id, the ledger stores the FULL parsed candidate list under
      it and every other entry is kept; on any failure the counter and the
      ledger are exactly as before. */
  function Search<Req, Target, Resp, Q, C, Out>(
    l: Ledger<Q, C>, env: Collaborators<Req, Target, Resp, Q, C, Out>, req: Req)
    : (r: (Result<Served<C, Out>>, Ledger<Q, C>))
    ensures r.0.Ok? <==> Prepare(env, req).Ok?
    ensures r.0.Err? ==> r.1 == l && Prepare(env, req) == Err(r.0.error)
    ensures r.0.Ok? ==> r.0.value.qid == l.next && r.1.next == l.next + 1
    ensures r.0.Ok? ==>
      && r.0.value.qid in r.1.queries
      && Prepare(env, req) == Ok(Prepared(r.0.value.body, r.1.queries[r.0.value.qid], r.0.value.shown))
    ensures r.0.Ok? ==> forall j :: 0 <= j < |r.0.value.shown| ==>
      r.0.value.shown[j] in r.1.queries[r.0.value.qid].candidates
    ensures forall k :: k in l.queries && k != l.next ==> k in r.1.queries && r.1.queries[k] == l.queries[k]
    ensures Valid(l) ==> Valid(r.1) && Extends(l, r.1)
  {
    match Prepare(env, req)
    case Err(e) => (Err(e), l)
    case Ok(p) =>
      var (qid, l') := Issue(l, p.record);
      (Ok(Served(p.body, qid, p.shown)), l')
  }

  /** Lines 38-45 of the train handler for a looked-up record, with the
      chosen index checked against `0 <= cid < len(candidates)`. */
  function Submit<Req, Target, Resp, Q, C, Out>(
    env: Collaborators<Req, Target, Resp, Q, C, Out>, record: Record<Q, C>, cid: int)
    : (r: Result<Submitted<Q, C>>)
    ensures !(0 <= cid < |record.candidates|) ==> r == Err(IndexOutOfRange)
    ensures 0 <= cid < |record.candidates| ==>
      var labels := OneHot(|record.candidates|, cid).value;
      && (r.Ok? <==> env.train(record.query, record.candidates, labels).Ok?)
      && (r.Err? ==> r.error == env.train(record.query, record.candidates, labels).error)
      && (r.Ok? ==> r.value == Submitted(record.query, record.candidates, labels))
    ensures r.Ok? ==>
      && record == Record(r.value.query, r.value.candidates)
      && 0 <= cid < |r.value.candidates|
      && |r.value.labels| == |r.value.candidates|
      && r.value.labels[cid] == 1
      && (forall k :: 0 <= k < |r.value.labels| && k != cid ==> r.value.labels[k] == 0)
      && env.train(r.value.query, r.value.candidates, r.value.labels).Ok?
  {
    var labels :- OneHot(|record.candidates|, cid);
    var ack :- env.train(record.query, record.candidates, labels);
    Ok(Submitted(record.query, record.candidates, labels))
  }

  /** Lines 38-45 exactly as written, for a looked-up record: the label
      write accepts `-len(candidates) <= cid < len(candidates)`. */
  function SubmitAsWritten<Req, Target, Resp, Q, C, Out>(
    env: Collaborators<Req, Target, Resp, Q, C, Out>, record: Record<Q, C>, cid: int)
    : (r: Result<Submitted<Q, C>>)
    ensures !InRange(cid, |record.candidates|) ==> r == Err(IndexOutOfRange)
    ensures InRange(cid, |record.candidates|) ==>
      var labels := LabelsAsWritten(|record.candidates|, cid).value;
      && (r.Ok? <==> env.train(record.query, record.candidates, labels).Ok?)
      && (r.Err? ==> r.error == env.train(record.query, record.candidates, labels).error)
    ensures r.Ok? ==>
      && r.value.query == record.query && r.value.candidates == record.candidates
      && InRange(cid, |record.candidates|)
      && r.value.labels == LabelsAsWritten(|record.candidates|, cid).value
      && |r.value.labels| == |r.value.candidates|
      && r.value.labels[Wrap(cid, |r.value.candidates|)] == 1
      && (forall k :: 0 <= k < |r.value.labels| && k != Wrap(cid, |r.value.candidates|) ==>
            r.value.labels[k] == 0)
      && env.train(r.value.query, r.value.candidates, r.value.labels).Ok?
  {
    var labels :- LabelsAsWritten(|record.candidates|, cid);
    var ack :- env.train(record.query, record.candidates, labels);
    Ok(Submitted(record.query, record.candidates, labels))
  }

  /** Lines 37-45 of the train handler once both headers are read: look the
      id up, then label and submit with the chosen index checked against
      `0 <= cid < len(candidates)`. */
  function TrainAt<Req, Target, Resp, Q, C, Out>(
    l: Ledger<Q, C>, env: Collaborators<Req, Target, Resp, Q, C, Out>, qid: int, cid: int)
    : (r: Result<Submitted<Q, C>>)
    ensures !(0 <= qid && qid in l.queries) ==> r == Err(UnknownQid(qid))
    ensures 0 <= qid && qid in l.queries && !(0 <= cid < |l.queries[qid].candidates|) ==>
      r == Err(IndexOutOfRange)
    ensures 0 <= qid && qid in l.queries && 0 <= cid < |l.queries[qid].candidates| ==>
      var rec := l.queries[qid];
      var labels := OneHot(|rec.candidates|, cid).value;
      && (r.Ok? <==> env.train(rec.query, rec.candidates, labels).Ok?)
      && (r.Err? ==> r.error == env.train(rec.query, rec.candidates, labels).error)
    ensures r.Ok? ==>
      && 0 <= qid && qid in l.queries
      && l.queries[qid] == Record(r.value.query, r.value.candidates)
      && 0 <= cid < |r.value.candidates|
      && |r.value.labels| == |r.value.candidates|
      && r.value.labels[cid] == 1
      && (forall k :: 0 <= k < |r.value.labels| && k != cid ==> r.value.labels[k] == 0)
      && env.train(r.value.query, r.value.candidates, r.value.labels).Ok?
  {
    match Lookup(l, qid)
    case Err(e) => Err(e)
    case Ok(record) => Submit(env, record, cid)
  }

  /** Lines 34-35 of the train handler: both headers read with `int()`,
      `qid` first, so a bad `qid` is reported even when `cid` is bad too. */
  function ReadIds(headers: map<string, string>): (r: Result<(int, int)>)
    ensures HeaderInt(headers, "qid").Err? ==> r == Err(HeaderInt(headers, "qid").error)
    ensures HeaderInt(headers, "qid").Ok? && HeaderInt(headers, "cid").Err? ==>
      r == Err(HeaderInt(headers, "cid").error)
    ensures r.Ok? <==> HeaderInt(headers, "qid").Ok? && HeaderInt(headers, "cid").Ok?
    ensures r.Ok? ==> r.value == (HeaderInt(headers, "qid").value, HeaderInt(headers, "cid").value)
  {
    var qid :- HeaderInt(headers, "qid");
    var cid :- HeaderInt(headers, "cid");
    Ok((qid, cid))
  }

  /** The train handler (lines 34-45) with a chosen index that must lie in
      `0 <= cid < len(candidates)`. */
  function Train<Req, Target, Resp, Q, C, Out>(
    l: Ledger<Q, C>, env: Collaborators<Req, Target, Resp, Q, C, Out>, headers: map<string, string>)
    : (r: Result<Submitted<Q, C>>)
    ensures HeaderInt(headers, "qid").Err? ==> r == Err(HeaderInt(headers, "qid").error)
    ensures HeaderInt(headers, "qid").Ok? && HeaderInt(headers, "cid").Err? ==>
      r == Err(HeaderInt(headers, "cid").error)
    ensures HeaderInt(headers, "qid").Ok? && HeaderInt(headers, "cid").Ok? ==>
      var qid := HeaderInt(headers, "qid").value;
      var cid := HeaderInt(headers, "cid").value;
      && (!(0 <= qid && qid in l.queries) ==> r == Err(UnknownQid(qid)))
      && (0 <= qid && qid in l.queries && !(0 <= cid < |l.queries[qid].candidates|) ==>
            r == Err(IndexOutOfRange))
      && (0 <= qid && qid in l.queries && 0 <= cid < |l.queries[qid].candidates| ==>
            var rec := l.queries[qid];
            var labels := OneHot(|rec.candidates|, cid).value;
            (r.Ok? <==> env.train(rec.query, rec.candidates, labels).Ok?)
            && (r.Err? ==> r.error == env.train(rec.query, rec.candidates, labels).error))
    ensures r.Ok? ==>
      && HeaderInt(headers, "qid").Ok? && HeaderInt(headers, "cid").Ok?
      && var qid := HeaderInt(headers, "qid").value;
         var cid := HeaderInt(headers, "cid").value;
         && 0 <= qid && qid in l.queries
         && l.queries[qid] == Record(r.value.query, r.value.candidates)
         && 0 <= cid < |r.value.candidates|
         && |r.value.labels| == |r.value.candidates|
         && r.value.labels[cid] == 1
         && (forall k :: 0 <= k < |r.value.labels| && k != cid ==> r.value.labels[k] == 0)
         && env.train(r.value.query, r.value.candidates, r.value.labels).Ok?
  {
    match ReadIds(headers)
    case Err(e) => Err(e)
    case Ok(ids) => TrainAt(l, env, ids.0, ids.1)
  }

  /** Lines 37-45 exactly as written, once both headers are read: look the
      id up, then label and submit with the wrapped label write. */
  function TrainAtAsWritten<Req, Target, Resp, Q, C, Out>(
    l: Ledger<Q, C>, env: Collaborators<Req, Target, Resp, Q, C, Out>, qid: int, cid: int)
    : (r: Result<Submitted<Q, C>>)
    ensures !(0 <= qid && qid in l.queries) ==> r == Err(UnknownQid(qid))
    ensures 0 <= qid && qid in l.queries && !InRange(cid, |l.queries[qid].candidates|) ==>
      r == Err(IndexOutOfRange)
    ensures 0 <= qid && qid in l.queries && InRange(cid, |l.queries[qid].candidates|) ==>
      var rec := l.queries[qid];
      var labels := LabelsAsWritten(|rec.candidates|, cid).value;
      && (r.Ok? <==> env.train(rec.query, rec.candidates, labels).Ok?)
      && (r.Err? ==> r.error == env.train(rec.query, rec.candidates, labels).error)
    ensures r.Ok? ==>
      && 0 <= qid && qid in l.queries
      && l.queries[qid] == Record(r.value.query, r.value.candidates)
      && InRange(cid, |r.value.candidates|)
      && |r.value.labels| == |r.value.candidates|
      && r.value.labels[Wrap(cid, |r.value.candidates|)] == 1
      && (forall k :: 0 <= k < |r.value.labels| && k != Wrap(cid, |r.value.candidates|) ==>
            r.value.labels[k] == 0)
      && env.train(r.value.query, r.value.candidates, r.value.labels).Ok?
  {
    match Lookup(l, qid)
    case Err(e) => Err(e)
    case Ok(record) => SubmitAsWritten(env, record, cid)
  }

  /** The train handler exactly as written: the same error order as `Train`,
      but the label write accepts any `cid` with
      `-len(candidates) <= cid < len(candidates)`. */
  function TrainAsWritten<Req, Target, Resp, Q, C, Out>(
    l: Ledger<Q, C>, env: Collaborators<Req, Target, Resp, Q, C, Out>, headers: map<string, string>)
    : (r: Result<Submitted<Q, C>>)
    ensures HeaderInt(headers, "qid").Err? ==> r == Err(HeaderInt(headers, "qid").error)
    ensures HeaderInt(headers, "qid").Ok? && HeaderInt(headers, "cid").Err? ==>
      r == Err(HeaderInt(headers, "cid").error)
    ensures HeaderInt(headers, "qid").Ok? && HeaderInt(headers, "cid").Ok? ==>
      var qid := HeaderInt(headers, "qid").value;
      var cid := HeaderInt(headers, "cid").value;
      && (!(0 <= qid && qid in l.queries) ==> r == Err(UnknownQid(qid)))
      && (0 <= qid && qid in l.queries && !InRange(cid, |l.queries[qid].candidates|) ==>
            r == Err(IndexOutOfRange))
      && (0 <= qid && qid in l.queries && InRange(cid, |l.queries[qid].candidates|) ==>
            var rec := l.queries[qid];
            var labels := LabelsAsWritten(|rec.candidates|, cid).value;
            (r.Ok? <==> env.train(rec.query, rec.candidates, labels).Ok?)
            && (r.Err? ==> r.error == env.train(rec.query, rec.candidates, labels).error))
    ensures r.Ok? ==>
      && HeaderInt(headers, "qid").Ok? && HeaderInt(headers, "cid").Ok?
      && var qid := HeaderInt(headers, "qid").value;
         var cid := HeaderInt(headers, "cid").value;
         && 0 <= qid && qid in l.queries
         && l.queries[qid] == Record(r.value.query, r.value.candidates)
         && InRange(cid, |r.value.candidates|)
         && |r.value.labels| == |r.value.candidates|
         && r.value.labels[Wrap(cid, |r.value.candidates|)] == 1
         && (forall k :: 0 <= k < |r.value.labels| && k != Wrap(cid, |r.value.candidates|) ==>
               r.value.labels[k] == 0)
         && env.train(r.value.query, r.value.candidates, r.value.labels).Ok?
  {
    match ReadIds(headers)
    case Err(e) => Err(e)
    case Ok(ids) => TrainAtAsWritten(l, env, ids.0, ids.1)
  }

  /** A request to one of the two routes, `/search` or `/train`. */
  datatype Request<Req> =
    | SearchRequest(req: Req)
    | TrainRequest(headers: map<string, string>)

  datatype Reply<Q, C, Out> =
    | Searched(served: Served<C, Out>)
    | Trained(submitted: Submitted<Q, C>)
    | Failed(error: Error)

  /** One request handled to completion. Only a successful search changes
      the ledger; a train request or a failed search leaves it as it was. */
  function Step<Req, Target, Resp, Q, C, Out>(
    l: Ledger<Q, C>, env: Collaborators<Req, Target, Resp, Q, C, Out>, rq: Request<Req>)
    : (r: (Reply<Q, C, Out>, Ledger<Q, C>))
    ensures r.0.Searched? ==> rq.SearchRequest? && r.0.served.qid == l.next && r.1.next == l.next + 1
    ensures !r.0.Searched? ==> r.1 == l
    ensures rq.TrainRequest? ==> r.1 == l
    ensures rq.SearchRequest? ==>
      && r.1 == Search(l, env, rq.req).1
      && (r.0.Searched? <==> Search(l, env, rq.req).0.Ok?)
      && (r.0.Searched? ==> Ok(r.0.served) == Search(l, env, rq.req).0)
      && (!r.0.Searched? ==> r.0 == Failed(Search(l, env, rq.req).0.error))
    ensures rq.TrainRequest? ==>
      && (r.0.Trained? <==> Train(l, env, rq.headers).Ok?)
      && (r.0.Trained? ==> Ok(r.0.submitted) == Train(l, env, rq.headers))
      && (!r.0.Trained? ==> r.0 == Failed(Train(l, env, rq.headers).error))
    ensures Valid(l) ==> Valid(r.1) && Extends(l, r.1)
  {
    match rq
    case SearchRequest(req) =>
      var (res, l') := Search(l, env, req);
      (match res case Ok(s) => Searched(s) case Err(e) => Failed(e), l')
    case TrainRequest(headers) =>
      (match Train(l, env, headers) case Ok(s) => Trained(s) case Err(e) => Failed(e), l)
  }

  /** The number of successful searches among some replies. */
  function CountSearched<Q, C, Out>(replies: seq<Reply<Q, C, Out>>): nat {
    if |replies| == 0 then 0
    else CountSearched(replies[..|replies| - 1]) + (if replies[|replies| - 1].Searched? then 1 else 0)
  }

  /** Requests handled one after another. Requests interleave only at the
      awaited collaborator calls and the id issue plus ledger insert holds no
      await, so every interleaving of whole requests is such a sequence.

      Request `i` is handled by `envs[i]`, the collaborators as they stand
      when it runs: a `train` call may change the model that later `rank`
      calls consult, so no two requests need see the same functions. */
  function Run<Req, Target, Resp, Q, C, Out>(
    l: Ledger<Q, C>, envs: seq<Collaborators<Req, Target, Resp, Q, C, Out>>, rqs: seq<Request<Req>>)
    : (r: (seq<Reply<Q, C, Out>>, Ledger<Q, C>))
    requires |envs| == |rqs|
    ensures |r.0| == |rqs|
    ensures r.1.next == l.next + CountSearched(r.0)
    ensures Valid(l) ==> Valid(r.1) && Extends(l, r.1)
    decreases |rqs|
  {
    if |rqs| == 0 then ([], l)
    else
      var (replies, mid) := Run(l, envs[..|envs| - 1], rqs[..|rqs| - 1]);
      var (last, l') := Step(mid, envs[|envs| - 1], rqs[|rqs| - 1]);
      var all := replies + [last];
      assert all[..|all| - 1] == replies;
      (all, l')
  }
}

=== FILE: pyseq.dfy ===
/** Python's list indexing and prefix slicing, written out: a negative index
    counts from the end, an index outside `-n <= i < n` raises IndexError,
    and `s[:k]` with a negative `k` drops `-k` elements from the end. */
module PySeq {
  import opened Outcomes

  /** `s[i]` on a list of length `n` does not raise. */
  predicate InRange(i: int, n: nat) {
    -(n as int) <= i < n
  }

  /** The position `s[i]` actually reads. */
  function Wrap(i: int, n: nat): (k: nat)
    requires InRange(i, n)
    ensures k < n
  {
    if i < 0 then n + i else i
  }

  /** `s[i]`: the element, or IndexError. */
  function Get<T>(s: seq<T>, i: int): (r: Result<T>)
    ensures r.Ok? <==> InRange(i, |s|)
    ensures r.Err? ==> r.error == IndexOutOfRange
    ensures r.Ok? ==> r.value == s[Wrap(i, |s|)]
    ensures r.Ok? && 0 <= i ==> r.value == s[i]
  {
    if InRange(i, |s|) then Ok(s[Wrap(i, |s|)]) else Err(IndexOutOfRange)
  }

  /** Length of `s[:k]` for a list of length `n`. */
  function PrefixLength(n: nat, k: int): (m: nat)
    ensures m <= n
  {
    if k >= 0 then (if k < n then k else n)
    else if n + k >= 0 then n + k else 0
  }

  /** `s[:k]`, which never raises. */
  function Prefix<T>(s: seq<T>, k: int): (r: seq<T>)
    ensures |r| == PrefixLength(|s|, k)
    ensures 0 <= k ==> |r| == (if k < |s| then k else |s|)
    ensures k < 0 ==> |r| == (if |s| + k >= 0 then |s| + k else 0)
    ensures r <= s
  {
    s[..PrefixLength(|s|, k)]
  }
}

=== FILE: rerank.dfy ===
/** Re-rank selection of the search handler:
    `reranked = [candidates[i] for i in ranks[:topk]]`. */
module Reranking {
  import opened Outcomes
  import opened PySeq

  /** Every index in `idx` can be read from a list of length `n`. */
  predicate AllInRange(idx: seq<int>, n: nat) {
    forall j :: 0 <= j < |idx| ==> InRange(idx[j], n)
  }

  /** `[candidates[i] for i in idx]`, evaluated left to right, so the first
      bad index raises IndexError and nothing is produced. */
  function Select<C>(candidates: seq<C>, idx: seq<int>): (r: Result<seq<C>>)
    ensures r.Ok? <==> AllInRange(idx, |candidates|)
    ensures r.Err? ==> r.error == IndexOutOfRange
    ensures r.Ok? ==> |r.value| == |idx|
    ensures r.Ok? ==> forall j :: 0 <= j < |idx| ==>
      r.value[j] == candidates[Wrap(idx[j], |candidates|)]
  {
    if |idx| == 0 then Ok([])
    else
      var head :- Get(candidates, idx[0]);
      var tail :- Select(candidates, idx[1..]);
      assert forall j :: 1 <= j < |idx| ==> idx[j] == idx[1..][j - 1];
      Ok([head] + tail)
  }

  /** The re-ranked result: the candidates named by the first `topk` ranks,
      in rank order, with Python's slice and index semantics. */
  function Rerank<C>(candidates: seq<C>, ranks: seq<int>, topk: int): (r: Result<seq<C>>)
    ensures r.Ok? <==> forall j :: 0 <= j < PrefixLength(|ranks|, topk) ==>
      InRange(ranks[j], |candidates|)
    ensures r.Err? ==> r.error == IndexOutOfRange
    ensures r.Ok? && 0 <= topk ==>
      |r.value| == (if topk < |ranks| then topk else |ranks|)
    ensures r.Ok? && topk < 0 ==>
      |r.value| == (if |ranks| + topk >= 0 then |ranks| + topk else 0)
    ensures r.Ok? ==> forall j :: 0 <= j < |r.value| ==>
      r.value[j] == candidates[Wrap(ranks[j], |candidates|)]
    ensures r.Ok? ==> forall j :: 0 <= j < |r.value| ==> r.value[j] in candidates
  {
    var idx := Prefix(ranks, topk);
    assert forall j :: 0 <= j < |idx| ==> idx[j] == ranks[j];
    Select(candidates, idx)
  }

  /** With non-negative `topk` and ranks that are plain indices, the result is
      exactly `min(topk, |ranks|)` candidates, `candidates[ranks[j]]` in order. */
  lemma RerankTopK<C>(candidates: seq<C>, ranks: seq<int>, topk: int)
    requires 0 <= topk
    requires forall j :: 0 <= j < |ranks| && j < topk ==> 0 <= ranks[j] < |candidates|
    ensures Rerank(candidates, ranks, topk).Ok?
    ensures |Rerank(candidates, ranks, topk).value| == (if topk < |ranks| then topk else |ranks|)
    ensures forall j :: 0 <= j < |Rerank(candidates, ranks, topk).value| ==>
      Rerank(candidates, ranks, topk).value[j] == candidates[ranks[j]]
  {
  }

  /** Truncation never reorders: a larger `topk` extends the result of a
      smaller one. */
  lemma {:induction false} RerankMonotone<C>(candidates: seq<C>, ranks: seq<int>, k1: int, k2: int)
    requires 0 <= k1 <= k2
    requires Rerank(candidates, ranks, k2).Ok?
    ensures Rerank(candidates, ranks, k1).Ok?
    ensures Rerank(candidates, ranks, k1).value <= Rerank(candidates, ranks, k2).value
  {
    var short := Rerank(candidates, ranks, k1);
    var long := Rerank(candidates, ranks, k2);
    assert PrefixLength(|ranks|, k1) <= PrefixLength(|ranks|, k2);
    assert short.Ok?;
    assert forall j :: 0 <= j < |short.value| ==> short.value[j] == long.value[j];
  }
}
